=== FILE: README.md ===
# DID document bindings, method queries, credential proofs and key collections

A Dafny model of four pieces of sequential decision logic in the IOTA
identity library:

- **Method queries** (`Verification`, `method_query.dfy`): a `MethodQuery` is an
  identifier (`Index(n)` or `Ident(s)`) and a `MethodScope`. The scopes are the
  general `verificationMethod` set and the five verification relationships of
  W3C DID Core (section 5.3). The model covers `new`, `with_scope`, every `From`
  conversion, and the `TryFrom<&Signature>` that reads a proof purpose as a scope.
- **Verifiable credential proofs** (`Credentials`, `verifiable.dfy`): a credential
  carries a `OneOrMany<Signature>`. The primary signature is element 0.
  `set_signature` collapses the proofs to `One`. `signature_mut` is modelled as
  a reference: the current value plus the credential you get by writing through it.
- **Key collection JSON** (`KeyCollections`, `key_collection.dfy`): per-index
  access in Base58, the Merkle root and proof, the export, and the lenient
  import. The import drops every entry whose public or secret key does not
  decode. It then refuses an empty result, as `from_iterator` does.
- **Document binding** (`DocumentBinding`, `document.dfy`, with the editable
  core document in `DidDocument`, `did_document.dfy`):
  - the `Params` accessors;
  - `resolveKey` and its identifier and scope defaulting;
  - the ordered checks of `signMerkleKey`;
  - `verifyMerkleKey`, `verifyDiff` and `encodeMerkleKey`;
  - the all-or-nothing `mutate` and the `update*` / `clear*` bindings built on it.

Cryptography, Base58, Merkle trees, method resolution, signing, diff parsing
and document validation are not fixed by the model. Each is a function-valued
parameter: `Crypto.Base58`, `Crypto.Merkle` and `DocumentBinding.Backend`.
A property that holds only for well-behaved collaborators names the
assumption, either in a lemma's requires or as the antecedent of an ensures.
An example is `Crypto.RoundTrips`: decoding undoes encoding.

Some types the core uses live in files that are not part of this model.
- `MethodScope::default()` and `MethodScope::from_str` are in
  `identity-did/src/verification/method_scope.rs`. The model takes the default
  to be the general verification-method set. It takes the parser to accept
  exactly the six PascalCase scope names (`Verification.ParseScope`).
- `OneOrMany` and the keyed `OrderedSet` are in `identity-core/src/common`.
  `OneOrMany::get` is modelled as "index 0 only" for `One`. `OrderedSet::update`
  is modelled as "replace the item with the same id in place, otherwise
  append", returning whether it replaced (`Common.Update`).
- `Document::try_resolve(&str)` is modelled as resolving
  `MethodQuery::from(&str)`, failing with `QueryMethodNotFound` when nothing
  resolves.

## Model

| member | source | states |
|---|---|---|
| Verification.New | identity-did/src/verification/method_query.rs:22-28 | the query holds the given identifier and the default scope |
| Verification.WithScope | identity-did/src/verification/method_query.rs:30-39 | the query holds exactly the given identifier and scope, unnormalised |
| Verification.FromName | identity-did/src/verification/method_query.rs:42-46 | a bare string becomes `Ident(s)` in the default scope |
| Verification.FromIndex | identity-did/src/verification/method_query.rs:48-52 | a bare index becomes `Index(n)` in the default scope |
| Verification.FromNameScope | identity-did/src/verification/method_query.rs:54-58 | a (string, scope) pair keeps both components |
| Verification.FromIndexScope | identity-did/src/verification/method_query.rs:60-64 | an (index, scope) pair keeps both components |
| Verification.FromPair | identity-did/src/verification/method_query.rs:66-70 | an (ident, scope) pair keeps both components |
| Verification.FromScope | identity-did/src/verification/method_query.rs:72-76 | a scope alone queries `Index(0)` in that scope |
| Verification.ConversionsAgree | identity-did/src/verification/method_query.rs:42-76 | each bare conversion equals its pair conversion with the default scope; a scope alone equals the pair (0, scope) |
| Verification.ParseScope | identity-did/src/verification/method_query.rs:85 | parsing succeeds exactly on a scope's name and yields the scope with that name; anything else is `UnknownMethodScope` |
| Verification.ParseScopeName | identity-did/src/verification/method_query.rs:85 | parsing a scope's name gives that scope back |
| Verification.TryFromSignature | identity-did/src/verification/method_query.rs:78-89 | the ident is always the signature's verification method. Without a purpose it never fails and uses the default scope. With a purpose it succeeds iff the purpose names a scope, and then uses that scope |
| Verification.SignaturePurposeRoundTrip | identity-did/src/verification/method_query.rs:81-88 | a purpose equal to a scope's name gives the (string, scope) query; no purpose gives the bare-string query |
| Credentials.New | identity-credential/src/credential/verifiable.rs:32-41 | `proof()` and the credential return exactly what was supplied |
| Credentials.VerifiableCredential.Proof | identity-credential/src/credential/verifiable.rs:44-46 | `proof()` returns the stored proofs themselves |
| Credentials.VerifiableCredential.Credential | identity-credential/src/credential/verifiable.rs:57-59 | `Deref` exposes the stored credential itself |
| Credentials.VerifiableCredential.WithProof | identity-credential/src/credential/verifiable.rs:48-51 | writing through `proof_mut` replaces the proofs and leaves the credential alone |
| Credentials.VerifiableCredential.WithCredential | identity-credential/src/credential/verifiable.rs:62-66 | writing through `DerefMut` replaces the credential and leaves the proofs alone |
| Credentials.VerifiableCredential.Signature | identity-credential/src/credential/verifiable.rs:81-85 | `None` iff the proof collection is empty; otherwise the first proof, which is the sole one for `One` |
| Credentials.VerifiableCredential.SignatureMut | identity-credential/src/credential/verifiable.rs:87-91 | `None` exactly when `signature()` is `None`. Otherwise it reads the current primary proof. Any write through it changes element 0 only: the credential, the proof count and kind, and all other proofs stay the same |
| Credentials.VerifiableCredential.SetSignature | identity-credential/src/credential/verifiable.rs:93-97 | afterwards the proofs are exactly `One(v)`, `signature()` is `Some(v)`, and the credential is unchanged |
| Common.OneOrMany.Get | identity-credential/src/credential/verifiable.rs:83 | `None` exactly past the end; otherwise element `i`, so a `One` answers only index 0 |
| Common.OneOrMany.SetAt | identity-credential/src/credential/verifiable.rs:89 | a write through the mutable reference to index `i` changes element `i` only and keeps the `One`/`Many` shape |
| Common.OneOrMany.IsEmpty | identity-credential/src/credential/verifiable.rs:27 | empty exactly when there are no elements, which is when the proof is left out of the serialised credential |
| Credentials.SetThenGet | identity-credential/src/credential/verifiable.rs:81-97 | set-then-get returns the value; a second set discards the first; after a set there is a primary proof to borrow |
| Credentials.WriteBackIsIdentity | identity-credential/src/credential/verifiable.rs:87-91 | writing the current primary proof back through the reference gives the same credential |
| KeyCollections.IsEmpty | bindings/wasm/src/crypto/key_collection.rs:50-59 | `isEmpty` holds iff `length` is 0 |
| KeyCollections.Length | bindings/wasm/src/crypto/key_collection.rs:51-53 | the number of key pairs, zero exactly for no pairs |
| KeyCollections.LengthIsIndexBound | bindings/wasm/src/crypto/key_collection.rs:51-83 | `keypair`, `public` and `secret` answer exactly for indices below `length`, and the public and secret key sequences have `length` entries |
| KeyCollections.Keypair | bindings/wasm/src/crypto/key_collection.rs:61-65 | the pair at `index`, `None` exactly past the end |
| KeyCollections.Publics | bindings/wasm/src/crypto/key_collection.rs:109 | the public keys, one per pair, in index order |
| KeyCollections.Secrets | bindings/wasm/src/crypto/key_collection.rs:110 | the secret keys, one per pair, in index order |
| KeyCollections.SecretAt | bindings/wasm/src/crypto/key_collection.rs:79 | `None` exactly past the end, otherwise secret key `index` |
| KeyCollections.Public | bindings/wasm/src/crypto/key_collection.rs:67-74 | `null` exactly when there is no key at `index`; otherwise the Base58 encoding of public key `index`, which decodes back to it when the codec round-trips |
| KeyCollections.Secret | bindings/wasm/src/crypto/key_collection.rs:76-83 | `null` exactly when there is no key at `index`; otherwise the Base58 encoding of secret key `index`, which decodes back to it when the codec round-trips |
| KeyCollections.MerkleRoot | bindings/wasm/src/crypto/key_collection.rs:85-90 | fails only on an unreadable digest; otherwise the Base58 encoding of the Merkle root of the public keys, which decodes back to it when the codec round-trips |
| KeyCollections.MerkleProof | bindings/wasm/src/crypto/key_collection.rs:92-104 | fails only on an unreadable digest. A missing proof gives `null`, not an error. A present proof is returned Base58-encoded, and decodes back to it when the codec round-trips |
| KeyCollections.Zip | bindings/wasm/src/crypto/key_collection.rs:112-113 | the zip is as long as the shorter input and pairs element `i` with element `i` |
| KeyCollections.ToJson | bindings/wasm/src/crypto/key_collection.rs:107-126 | the export has the key type and one entry per index, in index order, pairing encoded public `i` with encoded secret `i` |
| KeyCollections.DecodeEntry | bindings/wasm/src/crypto/key_collection.rs:133-137 | an entry is kept iff both halves decode, as the pair of the decoded halves |
| KeyCollections.DecodeEntries | bindings/wasm/src/crypto/key_collection.rs:133-138 | the lenient `flat_map` import yields at most one pair per entry; with the lemmas below, exactly the decodable entries' pairs, in entry order |
| KeyCollections.FromIterator | bindings/wasm/src/crypto/key_collection.rs:140 | the library constructor fails iff it is given no pairs; otherwise it keeps the type and pairs |
| KeyCollections.FromJson | bindings/wasm/src/crypto/key_collection.rs:129-141 | an unconvertible value fails. Otherwise the import succeeds iff some entry decodes, and an empty import is `EmptyKeyCollection`. The result has the JSON key type and exactly the decoded entries |
| KeyCollections.DecodeEntriesAppend | bindings/wasm/src/crypto/key_collection.rs:133-138 | decoding a concatenation is the concatenation of the decodings, so order is preserved |
| KeyCollections.DecodeEntriesSingle | bindings/wasm/src/crypto/key_collection.rs:133-138 | one entry yields its pair if it decodes and nothing otherwise |
| KeyCollections.DecodeEntriesMembership | bindings/wasm/src/crypto/key_collection.rs:133-138 | a pair is imported iff some entry decodes to it |
| KeyCollections.DecodeEntriesEmpty | bindings/wasm/src/crypto/key_collection.rs:133-140 | nothing is imported iff no entry decodes |
| KeyCollections.DecodeEntriesAll | bindings/wasm/src/crypto/key_collection.rs:133-138 | when every entry decodes, the import is entry-by-entry |
| KeyCollections.RoundTrip | bindings/wasm/src/crypto/key_collection.rs:107-141 | for a codec whose decode undoes encode, importing an export gives back the same non-empty collection, and an empty one gives `EmptyKeyCollection` |
| Common.Update | bindings/wasm/src/document.rs:256 | ordered-set update replaces in place iff an item with the same key exists, else appends exactly `s + [x]`; a replacement overwrites one item with that key by `x`; the item itself is present afterwards; items with other keys keep their positions |
| Common.IndexOfKey | bindings/wasm/src/document.rs:256 | the first position holding key `k`, with no earlier item holding it; `None` exactly when no item holds `k` |
| Common.UpdatedSpelledOut | bindings/wasm/src/document.rs:256 | the update relation implies its plain clauses: the item is present, an append is exactly `s + [x]`, a replacement keeps the length, items with other keys keep their positions |
| Common.UpdateKeepsUnique | bindings/wasm/src/document.rs:256 | update keeps the keys of an ordered set unique |
| DocumentBinding.Params.Network | bindings/wasm/src/document.rs:67-72 | `None` for no parameters; for an object, exactly the object's own network field, present or missing |
| DocumentBinding.Params.Shard | bindings/wasm/src/document.rs:74-79 | `None` for no parameters; for an object, exactly the object's own shard field, present or missing |
| DocumentBinding.Params.Tag | bindings/wasm/src/document.rs:81-86 | `None` for no parameters; for an object, exactly the object's own tag field, present or missing |
| DocumentBinding.IdentOf | bindings/wasm/src/document.rs:333-340 | a number that reads as an index becomes `Index` (one that does not read fails); a string becomes `Ident`; anything else is "Invalid Verification Method Identifier" |
| Errors.Error.Message | bindings/wasm/src/document.rs:189-353 | the exact message text of each of the five literal errors of `signMerkleKey` (lines 189, 200, 202) and `resolveKey` (lines 339, 353), and no text for any other error |
| DocumentBinding.ScopeOf | bindings/wasm/src/document.rs:342-346 | no scope means Authentication; a given scope must name a scope |
| DocumentBinding.ResolveKey | bindings/wasm/src/document.rs:330-354 | identifier errors come first, then scope errors. When both parse and the resolver finds a method for (ident, scope), the result is exactly that method; when it finds nothing, the result is "Verification Method Not Found", and only then |
| DocumentBinding.ResolveKeyDefaultScope | bindings/wasm/src/document.rs:342-353 | no scope resolves exactly like the explicit scope "Authentication"; a string identifier without a scope succeeds iff the resolver finds the (string, Authentication) query |
| DocumentBinding.TryResolve | bindings/wasm/src/document.rs:181 | the method resolved by the string in the default scope, or `QueryMethodNotFound` |
| DocumentBinding.KeyBytes | bindings/wasm/src/document.rs:182 | the method's key data decoded from Base58, failing iff it does not decode |
| DocumentBinding.DigestTagOf | bindings/wasm/src/document.rs:180-185 | succeeds iff resolution, decoding and tag extraction all succeed, yielding the digest tag. The first failing step decides the error: an unresolved method is `QueryMethodNotFound`, then undecodable key data is `Base58DecodeFailure`, then a tag extraction failure is passed on as an upstream error. None of these is one of the bindings' literal errors |
| DocumentBinding.SignerOutcome | bindings/wasm/src/document.rs:196-198 | the signer's success is passed on unchanged and its failure becomes an upstream error, never one of the literal errors |
| DocumentBinding.SignMerkleKey | bindings/wasm/src/document.rs:171-206 | the first failing check decides the error, in this order: data, method/tag, "Invalid Secret Key Index", "Invalid Merkle Key Digest", "Invalid Public Key Proof". Each literal error occurs exactly when the checks before it pass and its own fails. When every check passes, the result is the signer's: its signed object, or its failure as an upstream error |
| DocumentBinding.VerifyMerkleKey | bindings/wasm/src/document.rs:213-222 | success is always `true`; it succeeds iff the data converts, the target decodes and the signature verifies. The errors come in that order: the data's conversion error, then `Base58DecodeFailure`, then the verifier's own failure as an upstream error |
| DocumentBinding.SignThenVerify | bindings/wasm/src/document.rs:171-222 | an object signed with key `index` verifies, with `true`, against the Base58 public key `index` of the same collection, given a codec that round-trips and a signer and verifier that agree on the key pair |
| DocumentBinding.EncodeMerkleKey | bindings/wasm/src/document.rs:154-163 | never fails; the string decodes to the encoded Merkle key of the collection's root |
| DocumentBinding.EncodedKeySignsWithSha256 | bindings/wasm/src/document.rs:154-203 | with a codec that round-trips and tags that read back, signing with a method that holds an encoded Merkle key never fails the digest check. When the key and its proof exist, signing succeeds iff the signer does |
| DocumentBinding.VerifyDiff | bindings/wasm/src/document.rs:235-240 | never an error: unparseable text is `false`, otherwise whether the diff verifies |
| DocumentBinding.VerifyPrintedDiff | bindings/wasm/src/document.rs:235-240 | a diff printed by a printer the parser inverts verifies exactly when its signature does, and every text parsing to the same diff gets the same answer |
| DocumentBinding.TryFromDocument | bindings/wasm/src/document.rs:376 | accepts exactly the valid documents, unchanged |
| DocumentBinding.Mutate | bindings/wasm/src/document.rs:372-379 | on any failure the document is unchanged. A failed check-out is passed on as an upstream error; an invalid edited document is `InvalidDocument`. It succeeds iff check-out succeeds and the edited document is valid, and then the edited document is committed and the edit's output returned |
| DocumentBinding.UpdateMethod | bindings/wasm/src/document.rs:253-322 | all or nothing. On success the flag is true iff a method with that id was there; the method itself (embedded, in a relationship) is present; it was appended exactly when nothing was replaced, and otherwise overwrote the entry with its id in place; entries with other ids keep their positions; every other collection is unchanged. On failure the document is unchanged, a failed check-out is passed on as an upstream error, and an invalid edited document is `InvalidDocument`. |
| DocumentBinding.ClearMethods | bindings/wasm/src/document.rs:260-327 | all or nothing; on success the selected collection is empty and every other part is unchanged. On failure the document is unchanged, a failed check-out is passed on as an upstream error, and an invalid edited document is `InvalidDocument`. |
| DocumentBinding.UpdateService | bindings/wasm/src/document.rs:242-246 | an unconvertible service fails first with the document unchanged. Otherwise it is all or nothing; a success says whether it replaced, contains the service, appends it exactly when nothing was replaced, keeps services with other ids at their positions, and changes no other collection. On failure the document is unchanged, a failed check-out is passed on as an upstream error, and an invalid edited document is `InvalidDocument`. |
| DocumentBinding.ClearServices | bindings/wasm/src/document.rs:248-251 | all or nothing; on success there are no services and nothing else changed. On failure the document is unchanged, a failed check-out is passed on as an upstream error, and an invalid edited document is `InvalidDocument`. |
| DocumentBinding.UpdateMethodIsAtomic | bindings/wasm/src/document.rs:372-379 | with a faithful check-out, an update commits exactly the edited document when it is valid, and otherwise returns the validation error with the original document |
| DidDocument.UpdateMethodIn | bindings/wasm/src/document.rs:253-322 | the edit reports a replacement iff the id was present. The method is present afterwards, itself in the general list and embedded in a relationship. It is appended exactly when nothing was replaced, and otherwise overwrites the entry with its id in place. Entries with other ids keep their positions and nothing outside the collection changes |
| DidDocument.ClearMethodsIn | bindings/wasm/src/document.rs:260-327 | the selected collection becomes empty and nothing outside it changes |
| DidDocument.UpdateServiceIn | bindings/wasm/src/document.rs:245 | a replacement is reported iff the id was present; the service is present afterwards; it is appended exactly when nothing was replaced; services with other ids keep their positions; no other collection changes |
| DidDocument.ClearServicesIn | bindings/wasm/src/document.rs:250 | no services remain and nothing else changes |
| DidDocument.UpdateThenClear | bindings/wasm/src/document.rs:253-327 | clearing after an update equals clearing: an update touches only its own collection |
| DidDocument.UpdateIdempotent | bindings/wasm/src/document.rs:253-322 | updating the same method twice equals updating once, and the second update reports a replacement |

## Left out

- JavaScript value conversion (`into_serde`, `from_serde`, `JsValue`): an input that serde converts is a `Converted<T>`, so its failure is modelled. The failure of converting an output back to a `JsValue` is not modelled.
- `resolve_key`'s `f64 -> string -> usize` reading of a number is floating point. It is an input `JsNumber(asIndex)` that either carries the index or records that the number does not read as one.
- Indices are unbounded naturals: the width of `usize` is not modelled.
- `KeyCollection::new` and `Document::new` generate keys from a random source and are not modelled.
- `Document::from_auth`, `id`, `proof`, `sign`, `verify`, `diff`, `to_json` and `from_json` only delegate to the library and are not modelled. The same holds for the `NewDocument` getters and the credential `Display`.
- Base58, Ed25519, SHA-256, Merkle trees and Merkle key encoding/tag extraction are function parameters, not implementations.
- Document resolution, `sign_that`, `verify_that`, `verify_data`, diff parsing and `try_from_document`'s validation rules are `Backend` parameters.
- `DocumentBinding.KeyBytes` models only Base58 key data; other key-data encodings of a method are not modelled.
- The `Into<OneOrMany<Signature>>` conversion at `VerifiableCredential::new` is done by the caller: `Credentials.New` takes the `OneOrMany` itself.
- `identity_actor/src/sh_actor.rs`: asynchronous message passing, out of scope.
- `identity-core/src/utils/jcs_sha256.rs`: a wrapper over JSON canonicalisation and SHA-256, absorbed into the signing parameters.
- `identity-did/src/lib.rs`, `identity_iota/src/lib.rs`, `identity_communication/src/error.rs`: module declarations and error plumbing, no logic.

=== FILE: common.dfy ===
/** The two containers of the library's `common` module that the core relies
    on: `OneOrMany` (a proof collection) and the keyed ordered set that holds a
    document's methods and services. */
module Common {
  import opened Wrappers

  /** One value, or a (possibly empty) sequence of values. */
  datatype OneOrMany<T> = One(one: T) | Many(many: seq<T>)
  {
    /** The values in order. */
    function Elements(): (s: seq<T>)
      ensures One? ==> s == [one]
      ensures Many? ==> s == many
    {
      match this
      case One(x) => [x]
      case Many(xs) => xs
    }

    function Len(): (n: nat)
      ensures n == |Elements()|
    {
      match this
      case One(_) => 1
      case Many(xs) => |xs|
    }

    predicate IsEmpty()
      ensures IsEmpty() <==> Len() == 0
    {
      Many? && many == []
    }

    /** The value at index `i`, `None` past the end. A `One` has index 0 only. */
    function Get(i: nat): (r: Option<T>)
      ensures r.None? <==> i >= |Elements()|
      ensures r.Some? ==> r.value == Elements()[i]
    {
      match this
      case One(x) => if i == 0 then Some(x) else None
      case Many(xs) => if i < |xs| then Some(xs[i]) else None
    }

    /** Writing `v` through the mutable reference to index `i`. */
    function SetAt(i: nat, v: T): (r: OneOrMany<T>)
      requires i < Len()
      ensures r.Elements() == Elements()[i := v]
      ensures r.One? <==> One?
    {
      match this
      case One(_) => One(v)
      case Many(xs) => Many(xs[i := v])
    }
  }

  /** The keys of the items of `s`, in order. */
  function Keys<T>(s: seq<T>, key: T -> string): (ks: seq<string>)
    ensures |ks| == |s|
    ensures forall i :: 0 <= i < |s| ==> ks[i] == key(s[i])
  {
    seq(|s|, i requires 0 <= i < |s| => key(s[i]))
  }

  /** No two items share a key: the invariant of an ordered set. */
  predicate UniqueKeys<T>(s: seq<T>, key: T -> string) {
    forall i, j :: 0 <= i < j < |s| ==> key(s[i]) != key(s[j])
  }

  /** The first position whose item has key `k`. */
  function IndexOfKey<T>(s: seq<T>, key: T -> string, k: string): (r: Option<nat>)
    ensures r.Some? ==> r.value < |s| && key(s[r.value]) == k
    ensures r.Some? ==> forall j :: 0 <= j < r.value ==> key(s[j]) != k
    ensures r.None? <==> k !in Keys(s, key)
    decreases |s|
  {
    if |s| == 0 then None
    else if key(s[0]) == k then Some(0)
    else
      match IndexOfKey(s[1..], key, k)
      case None =>
        assert Keys(s, key) == [key(s[0])] + Keys(s[1..], key);
        None
      case Some(i) => Some(i + 1)
  }

  /** `t` is what an ordered-set update of `s` with `x` may leave when it
      reports `replaced`: `x` is present; a replacement overwrites one item
      with `x`'s key in place, otherwise `x` is appended; every item with
      another key keeps its position. */
  predicate Updated<T(==)>(s: seq<T>, t: seq<T>, key: T -> string, x: T, replaced: bool) {
    && x in t
    && (replaced ==> exists i :: 0 <= i < |s| && key(s[i]) == key(x) && t == s[i := x])
    && (!replaced ==> t == s + [x])
    && (forall j :: 0 <= j < |s| && key(s[j]) != key(x) ==> t[j] == s[j])
  }

  /** Ordered-set update: an item with the same key is replaced in place,
      otherwise `x` is appended; the flag says whether a replacement happened. */
  function Update<T(==)>(s: seq<T>, key: T -> string, x: T): (r: (seq<T>, bool))
    ensures r.1 <==> key(x) in Keys(s, key)
    ensures |r.0| == if r.1 then |s| else |s| + 1
    ensures key(x) in Keys(r.0, key)
    ensures Updated(s, r.0, key, x, r.1)
  {
    match IndexOfKey(s, key, key(x))
    case Some(i) =>
      assert Keys(s[i := x], key)[i] == key(x);
      assert s[i := x][i] == x;
      (s[i := x], true)
    case None =>
      assert Keys(s + [x], key)[|s|] == key(x);
      assert (s + [x])[|s|] == x;
      (s + [x], false)
  }

  /** What `Updated` says, spelled out clause by clause. */
  lemma UpdatedSpelledOut<T>(s: seq<T>, t: seq<T>, key: T -> string, x: T, replaced: bool)
    requires Updated(s, t, key, x, replaced)
    ensures x in t
    ensures !replaced ==> t == s + [x]
    ensures replaced ==> |t| == |s|
    ensures forall j :: 0 <= j < |s| && key(s[j]) != key(x) ==> t[j] == s[j]
  {
  }

  /** Update keeps keys unique. */
  lemma UpdateKeepsUnique<T>(s: seq<T>, key: T -> string, x: T)
    requires UniqueKeys(s, key)
    ensures UniqueKeys(Update(s, key, x).0, key)
  {
  }
}

=== FILE: crypto.dfy ===
/** Key material, signatures and the cryptographic collaborators. Every
    algorithm (Base58, Merkle trees, Ed25519, SHA-256) is a parameter: the
    model only fixes how the core uses them. */
module Crypto {
  import opened Wrappers

  type byte = x: int | 0 <= x < 256
  type Bytes = seq<byte>

  /** The key types a collection can hold; Ed25519 is the only one. */
  datatype KeyType = Ed25519

  type PublicKey = Bytes
  type SecretKey = Bytes

  /** The digest a Merkle Key Collection is committed with. */
  datatype Digest = Sha256

  /** The digest tag read out of an encoded Merkle key. Any tag other than
      SHA-256 is carried as its raw code. */
  datatype MerkleTag = Sha256Tag | OtherTag(code: byte)

  /** A proof value attached to a document or credential. */
  datatype Signature = Signature(
    sigType: string,
    verificationMethod: string,
    proofPurpose: Option<string>,
    value: string)

  /** A Base58 codec: `decode` may refuse a string that is not Base58. */
  datatype Base58 = Base58(encode: Bytes -> string, decode: string -> Option<Bytes>)

  /** Decoding undoes encoding, the one property the core relies on. */
  ghost predicate RoundTrips(codec: Base58) {
    forall x :: codec.decode(codec.encode(x)) == Some(x)
  }

  /** The SHA-256 Merkle tree over a collection's public keys, in index order:
      its root and the encoded inclusion proof of one index, if there is one. */
  datatype Merkle = Merkle(root: seq<PublicKey> -> Bytes, proof: (seq<PublicKey>, nat) -> Option<Bytes>)
}

=== FILE: did_document.dfy ===
/** The editable DID document the bindings check out for mutation: its
    general method list, its five verification-relationship collections and
    its services, each a keyed ordered set. */
module DidDocument {
  import opened Wrappers
  import opened Crypto
  import opened Common
  import opened Verification

  /** A verification method; `keyData` is its encoded public key material. */
  datatype Method = Method(id: string, controller: string, keyType: KeyType, keyData: string)

  /** An entry of a verification relationship: an embedded method or a
      reference to one in the general list. */
  datatype MethodRef = Embed(embedded: Method) | Refer(target: string)

  datatype Service = Service(id: string, serviceType: string, endpoint: string)

  datatype CoreDocument = CoreDocument(
    id: string,
    verificationMethod: seq<Method>,
    authentication: seq<MethodRef>,
    assertionMethod: seq<MethodRef>,
    keyAgreement: seq<MethodRef>,
    capabilityDelegation: seq<MethodRef>,
    capabilityInvocation: seq<MethodRef>,
    service: seq<Service>,
    proof: Option<Signature>)

  function MethodId(m: Method): string { m.id }

  function RefId(r: MethodRef): string {
    match r
    case Embed(m) => m.id
    case Refer(id) => id
  }

  function ServiceId(s: Service): string { s.id }

  /** One editable collection of a document. */
  datatype Part = Methods(scope: MethodScope) | Services

  /** The identifiers held in a collection, in order. */
  function Ids(d: CoreDocument, part: Part): seq<string> {
    match part
    case Services => Keys(d.service, ServiceId)
    case Methods(VerificationMethod) => Keys(d.verificationMethod, MethodId)
    case Methods(Authentication) => Keys(d.authentication, RefId)
    case Methods(AssertionMethod) => Keys(d.assertionMethod, RefId)
    case Methods(KeyAgreement) => Keys(d.keyAgreement, RefId)
    case Methods(CapabilityDelegation) => Keys(d.capabilityDelegation, RefId)
    case Methods(CapabilityInvocation) => Keys(d.capabilityInvocation, RefId)
  }

  /** `a` and `b` agree on everything except, possibly, collection `part`. */
  ghost predicate SameOutside(a: CoreDocument, b: CoreDocument, part: Part) {
    && a.id == b.id
    && a.proof == b.proof
    && (part != Methods(VerificationMethod) ==> a.verificationMethod == b.verificationMethod)
    && (part != Methods(Authentication) ==> a.authentication == b.authentication)
    && (part != Methods(AssertionMethod) ==> a.assertionMethod == b.assertionMethod)
    && (part != Methods(KeyAgreement) ==> a.keyAgreement == b.keyAgreement)
    && (part != Methods(CapabilityDelegation) ==> a.capabilityDelegation == b.capabilityDelegation)
    && (part != Methods(CapabilityInvocation) ==> a.capabilityInvocation == b.capabilityInvocation)
    && (part != Services ==> a.service == b.service)
  }

  /** `after` is `before` with `m` put into the collection of `scope` by an
      ordered-set update that reported `replaced`: the general list holds `m`
      itself, a relationship holds it embedded. */
  predicate MethodUpdated(before: CoreDocument, after: CoreDocument, scope: MethodScope, m: Method, replaced: bool) {
    match scope
    case VerificationMethod => Updated(before.verificationMethod, after.verificationMethod, MethodId, m, replaced)
    case Authentication => Updated(before.authentication, after.authentication, RefId, Embed(m), replaced)
    case AssertionMethod => Updated(before.assertionMethod, after.assertionMethod, RefId, Embed(m), replaced)
    case KeyAgreement => Updated(before.keyAgreement, after.keyAgreement, RefId, Embed(m), replaced)
    case CapabilityDelegation =>
      Updated(before.capabilityDelegation, after.capabilityDelegation, RefId, Embed(m), replaced)
    case CapabilityInvocation =>
      Updated(before.capabilityInvocation, after.capabilityInvocation, RefId, Embed(m), replaced)
  }

  /** The `update` edit of the `update*` bindings for methods: the general
      list takes the method itself, a relationship takes it embedded. The flag
      says whether a method with the same id was replaced. */
  function UpdateMethodIn(d: CoreDocument, scope: MethodScope, m: Method): (r: (CoreDocument, bool))
    ensures r.1 <==> m.id in Ids(d, Methods(scope))
    ensures m.id in Ids(r.0, Methods(scope))
    ensures SameOutside(r.0, d, Methods(scope))
    ensures MethodUpdated(d, r.0, scope, m, r.1)
  {
    match scope
    case VerificationMethod =>
      var u := Update(d.verificationMethod, MethodId, m); (d.(verificationMethod := u.0), u.1)
    case Authentication =>
      var u := Update(d.authentication, RefId, Embed(m)); (d.(authentication := u.0), u.1)
    case AssertionMethod =>
      var u := Update(d.assertionMethod, RefId, Embed(m)); (d.(assertionMethod := u.0), u.1)
    case KeyAgreement =>
      var u := Update(d.keyAgreement, RefId, Embed(m)); (d.(keyAgreement := u.0), u.1)
    case CapabilityDelegation =>
      var u := Update(d.capabilityDelegation, RefId, Embed(m)); (d.(capabilityDelegation := u.0), u.1)
    case CapabilityInvocation =>
      var u := Update(d.capabilityInvocation, RefId, Embed(m)); (d.(capabilityInvocation := u.0), u.1)
  }

  /** The `clear` edit of the `clear*` bindings for methods. */
  function ClearMethodsIn(d: CoreDocument, scope: MethodScope): (r: CoreDocument)
    ensures Ids(r, Methods(scope)) == []
    ensures SameOutside(r, d, Methods(scope))
  {
    match scope
    case VerificationMethod => d.(verificationMethod := [])
    case Authentication => d.(authentication := [])
    case AssertionMethod => d.(assertionMethod := [])
    case KeyAgreement => d.(keyAgreement := [])
    case CapabilityDelegation => d.(capabilityDelegation := [])
    case CapabilityInvocation => d.(capabilityInvocation := [])
  }

  /** The edit of `updateService`. */
  function UpdateServiceIn(d: CoreDocument, s: Service): (r: (CoreDocument, bool))
    ensures r.1 <==> s.id in Ids(d, Services)
    ensures SameOutside(r.0, d, Services)
    ensures Updated(d.service, r.0.service, ServiceId, s, r.1)
  {
    var u := Update(d.service, ServiceId, s);
    (d.(service := u.0), u.1)
  }

  /** The edit of `clearServices`. */
  function ClearServicesIn(d: CoreDocument): (r: CoreDocument)
    ensures r.service == []
    ensures SameOutside(r, d, Services)
  {
    d.(service := [])
  }

  /** Clearing a collection after updating it is the same as clearing it:
      an update touches nothing outside its own collection. */
  lemma UpdateThenClear(d: CoreDocument, scope: MethodScope, m: Method)
    ensures ClearMethodsIn(UpdateMethodIn(d, scope, m).0, scope) == ClearMethodsIn(d, scope)
  {
  }

  /** Updating the same method twice is the same as updating it once, and
      the second update always reports a replacement. */
  lemma UpdateIdempotent(d: CoreDocument, scope: MethodScope, m: Method)
    ensures UpdateMethodIn(UpdateMethodIn(d, scope, m).0, scope, m).1
    ensures UpdateMethodIn(UpdateMethodIn(d, scope, m).0, scope, m).0 == UpdateMethodIn(d, scope, m).0
  {
    match scope
    case VerificationMethod => UpdateTwice(d.verificationMethod, MethodId, m);
    case Authentication => UpdateTwice(d.authentication, RefId, Embed(m));
    case AssertionMethod => UpdateTwice(d.assertionMethod, RefId, Embed(m));
    case KeyAgreement => UpdateTwice(d.keyAgreement, RefId, Embed(m));
    case CapabilityDelegation => UpdateTwice(d.capabilityDelegation, RefId, Embed(m));
    case CapabilityInvocation => UpdateTwice(d.capabilityInvocation, RefId, Embed(m));
  }

  /** Ordered-set update is idempotent. */
  lemma UpdateTwice<T>(s: seq<T>, key: T -> string, x: T)
    ensures Update(Update(s, key, x).0, key, x) == (Update(s, key, x).0, true)
  {
    var s1 := Update(s, key, x).0;
    var j := IndexOfKey(s1, key, key(x));
    assert j.Some?;
    match IndexOfKey(s, key, key(x))
    case Some(i) =>
      assert s1 == s[i := x];
      assert key(s1[i]) == key(x);
      assert forall k :: 0 <= k < i ==> s1[k] == s[k];
      assert j.value == i;
      assert s1[i := x] == s1;
    case None =>
      assert s1 == s + [x];
      assert j.value == |s|;
      assert s1[|s| := x] == s1;
  }
}

=== FILE: document.dfy ===
/** The JavaScript-facing DID document: creation parameters, method lookup,
    Merkle Key Collection signing and verification, diff verification and the
    all-or-nothing editing of the underlying document. The library below the
    bindings (resolution, Merkle keys, signing, diff parsing, validation) is a
    `Backend` of collaborator functions. */
module DocumentBinding {
  import opened Wrappers
  import opened Errors
  import opened Crypto
  import opened Verification
  import opened KeyCollections
  import opened Common
  import opened DidDocument

  /** Optional creation parameters: nothing, or an object whose fields may be
      missing. */
  datatype Params = NoParams | Object(network: Option<string>, shard: Option<string>, tag: Option<string>)
  {
    function Network(): (r: Option<string>)
      ensures NoParams? ==> r.None?
      ensures Object? ==> r == network
    {
      match this
      case NoParams => None
      case Object(n, _, _) => n
    }

    function Shard(): (r: Option<string>)
      ensures NoParams? ==> r.None?
      ensures Object? ==> r == shard
    {
      match this
      case NoParams => None
      case Object(_, s, _) => s
    }

    function Tag(): (r: Option<string>)
      ensures NoParams? ==> r.None?
      ensures Object? ==> r == tag
    {
      match this
      case NoParams => None
      case Object(_, _, t) => t
    }
  }

  /** A validated IOTA DID document wrapping its core document. */
  datatype IotaDocument = IotaDocument(core: CoreDocument)

  /** A signed diff between two document versions, chained to a previous
      message. */
  datatype DocumentDiff = DocumentDiff(id: string, diff: string, previousMessageId: string, proof: Signature)

  /** The JSON text of an object to be signed or verified. */
  type Properties = string

  /** A JavaScript method identifier: a number (with the outcome of reading
      it as an unsigned index), a string, or any other value. */
  datatype JsIdent = JsNumber(asIndex: Option<nat>) | JsString(text: string) | JsOther

  /** The library functions the bindings call. */
  datatype Backend = Backend(
    codec: Base58,
    merkle: Merkle,
    serdeInto: IotaDocument -> Result<CoreDocument, string>,
    isValid: CoreDocument -> bool,
    resolve: (CoreDocument, MethodQuery) -> Option<Method>,
    encodeKey: Bytes -> Bytes,
    extractTags: Bytes -> Result<(byte, MerkleTag), string>,
    signThat: (CoreDocument, Properties, string, SecretKey, Bytes) -> Result<Properties, string>,
    verifyThat: (CoreDocument, Properties, PublicKey) -> Result<(), string>,
    parseDiff: string -> Option<DocumentDiff>,
    verifyData: (CoreDocument, DocumentDiff) -> Result<(), string>)

  /** Whatever the signer produces with secret key `secret` is accepted by the
      verifier holding public key `public`, for every document, object,
      method and proof. */
  ghost predicate SignaturesVerify(b: Backend, secret: SecretKey, public: PublicKey) {
    forall core, props, methodName, proof ::
      b.signThat(core, props, methodName, secret, proof).Ok? ==>
        b.verifyThat(core, b.signThat(core, props, methodName, secret, proof).value, public).Ok?
  }

  /** Merkle key encoding is read back by tag extraction as a SHA-256 key. */
  ghost predicate TagsRoundTrip(b: Backend) {
    forall root :: b.extractTags(b.encodeKey(root)).Ok? && b.extractTags(b.encodeKey(root)).value.1 == Sha256Tag
  }

  // ---------------------------------------------------------------------------
  // Method lookup

  /** The identifier of `resolveKey`: a number is a position, a string an
      identifier, anything else is refused. */
  function IdentOf(v: JsIdent): (r: Result<MethodIdent, Error>)
    ensures r == Err(InvalidIdentifier) <==> v.JsOther?
    ensures v.JsNumber? ==> (r.Ok? <==> v.asIndex.Some?)
    ensures v.JsNumber? && r.Ok? ==> r.value == Index(v.asIndex.value)
    ensures v.JsNumber? && r.Err? ==> r.error == IndexParseFailure
    ensures v.JsString? ==> r == Ok(Ident(v.text))
  {
    match v
    case JsNumber(n) =>
      (match n
       case Some(i) => Ok(Index(i))
       case None => Err(IndexParseFailure))
    case JsString(s) => Ok(Ident(s))
    case JsOther => Err(InvalidIdentifier)
  }

  /** The scope of `resolveKey`: parsed when given, Authentication otherwise. */
  function ScopeOf(scope: Option<string>): (r: Result<MethodScope, Error>)
    ensures scope.None? ==> r == Ok(Authentication)
    ensures scope.Some? ==> (r.Ok? <==> exists s: MethodScope :: s.Name() == scope.value)
    ensures scope.Some? && r.Ok? ==> r.value.Name() == scope.value
    ensures r.Err? ==> r.error == UnknownMethodScope
  {
    match scope
    case None => Ok(Authentication)
    case Some(s) => ParseScope(s)
  }

  /** `resolveKey(ident, scope)`: the identifier is checked before the scope,
      and an unresolved query is "Verification Method Not Found". */
  function ResolveKey(b: Backend, doc: IotaDocument, ident: JsIdent, scope: Option<string>): (r: Result<Method, Error>)
    ensures IdentOf(ident).Err? ==> r == Err(IdentOf(ident).error)
    ensures IdentOf(ident).Ok? && ScopeOf(scope).Err? ==> r == Err(UnknownMethodScope)
    ensures r.Ok? ==> IdentOf(ident).Ok? && ScopeOf(scope).Ok?
    ensures r.Ok? ==> b.resolve(doc.core, WithScope(IdentOf(ident).value, ScopeOf(scope).value)) == Some(r.value)
    ensures r == Err(MethodNotFound) <==>
              IdentOf(ident).Ok? && ScopeOf(scope).Ok?
              && b.resolve(doc.core, WithScope(IdentOf(ident).value, ScopeOf(scope).value)).None?
    ensures IdentOf(ident).Ok? && ScopeOf(scope).Ok?
            && b.resolve(doc.core, WithScope(IdentOf(ident).value, ScopeOf(scope).value)).Some? ==>
              r == Ok(b.resolve(doc.core, WithScope(IdentOf(ident).value, ScopeOf(scope).value)).value)
  {
    match IdentOf(ident)
    case Err(e) => Err(e)
    case Ok(id) =>
      match ScopeOf(scope)
      case Err(e) => Err(e)
      case Ok(s) =>
        match b.resolve(doc.core, FromPair((id, s)))
        case Some(m) => Ok(m)
        case None => Err(MethodNotFound)
  }

  /** Leaving the scope out is the same as asking for Authentication, and
      a string identifier queries the resolver exactly as the
      (string, scope) conversion does. */
  lemma ResolveKeyDefaultScope(b: Backend, doc: IotaDocument, ident: JsIdent, name: string)
    ensures ResolveKey(b, doc, ident, None) == ResolveKey(b, doc, ident, Some(Authentication.Name()))
    ensures ResolveKey(b, doc, JsString(name), None).Ok? <==>
              b.resolve(doc.core, FromNameScope(name, Authentication)).Some?
  {
    ParseScopeName(Authentication);
  }

  // ---------------------------------------------------------------------------
  // Merkle Key Collection signatures

  /** `try_resolve(&str)`: a string query in the default scope, failing when
      nothing resolves. */
  function TryResolve(b: Backend, doc: IotaDocument, methodName: string): (r: Result<Method, Error>)
    ensures r.Ok? ==> b.resolve(doc.core, FromName(methodName)) == Some(r.value)
    ensures r.Err? <==> b.resolve(doc.core, FromName(methodName)).None?
    ensures r.Err? ==> r.error == QueryMethodNotFound
  {
    match b.resolve(doc.core, FromName(methodName))
    case Some(m) => Ok(m)
    case None => Err(QueryMethodNotFound)
  }

  /** `key_data().try_decode()` for Base58 key data. */
  function KeyBytes(b: Backend, m: Method): (r: Result<Bytes, Error>)
    ensures r.Ok? <==> b.codec.decode(m.keyData).Some?
    ensures r.Ok? ==> Some(r.value) == b.codec.decode(m.keyData)
    ensures r.Err? ==> r.error == Base58DecodeFailure
  {
    match b.codec.decode(m.keyData)
    case Some(bytes) => Ok(bytes)
    case None => Err(Base58DecodeFailure)
  }

  /** The first check of `signMerkleKey`: resolve the method, decode its key
      data and extract the digest tag of the Merkle key. */
  function DigestTagOf(b: Backend, doc: IotaDocument, methodName: string): (r: Result<MerkleTag, Error>)
    ensures r.Ok? <==> TryResolve(b, doc, methodName).Ok?
                       && KeyBytes(b, TryResolve(b, doc, methodName).value).Ok?
                       && b.extractTags(KeyBytes(b, TryResolve(b, doc, methodName).value).value).Ok?
    ensures r.Ok? ==> r.value == b.extractTags(KeyBytes(b, TryResolve(b, doc, methodName).value).value).value.1
    ensures r.Err? ==> r.error.Message().None?
    ensures TryResolve(b, doc, methodName).Err? ==> r == Err(QueryMethodNotFound)
    ensures TryResolve(b, doc, methodName).Ok? && KeyBytes(b, TryResolve(b, doc, methodName).value).Err? ==>
              r == Err(Base58DecodeFailure)
    ensures TryResolve(b, doc, methodName).Ok? && KeyBytes(b, TryResolve(b, doc, methodName).value).Ok?
            && b.extractTags(KeyBytes(b, TryResolve(b, doc, methodName).value).value).Err? ==>
              r == Err(Upstream(b.extractTags(KeyBytes(b, TryResolve(b, doc, methodName).value).value).error))
  {
    match TryResolve(b, doc, methodName)
    case Err(e) => Err(e)
    case Ok(m) =>
      match KeyBytes(b, m)
      case Err(e) => Err(e)
      case Ok(bytes) =>
        match b.extractTags(bytes)
        case Err(reason) => Err(Upstream(reason))
        case Ok(tags) => Ok(tags.1)
  }

  /** The binding's view of the signer's outcome: its failure reason is passed
      on as an upstream error. */
  function SignerOutcome(s: Result<Properties, string>): (r: Result<Properties, Error>)
    ensures r.Ok? <==> s.Ok?
    ensures r.Ok? ==> r.value == s.value
    ensures r.Err? ==> r.error == Upstream(s.error) && r.error.Message().None?
  {
    match s
    case Ok(p) => Ok(p)
    case Err(reason) => Err(Upstream(reason))
  }

  /** `signMerkleKey(data, keys, method, index)`. The checks run in a fixed
      order and the first failing one decides the error: the data, the method
      and its digest tag, the secret key index, the digest, the Merkle proof.
      The signer is reached only when key `index` and its proof both exist. */
  function SignMerkleKey(b: Backend, doc: IotaDocument, data: Converted<Properties>, keys: KeyCollection,
                         methodName: string, index: nat): (r: Result<Properties, Error>)
    ensures data.Unconvertible? ==> r == Err(Upstream(data.reason))
    ensures data.Converted? && DigestTagOf(b, doc, methodName).Err? ==> r == Err(DigestTagOf(b, doc, methodName).error)
    ensures r == Err(InvalidSecretKeyIndex) <==>
              data.Converted? && DigestTagOf(b, doc, methodName).Ok? && index >= Length(keys)
    ensures r == Err(InvalidMerkleKeyDigest) <==>
              data.Converted? && DigestTagOf(b, doc, methodName).Ok? && index < Length(keys)
              && DigestTagOf(b, doc, methodName).value != Sha256Tag
    ensures r == Err(InvalidPublicKeyProof) <==>
              data.Converted? && DigestTagOf(b, doc, methodName) == Ok(Sha256Tag) && index < Length(keys)
              && ProofAt(b.merkle, keys, index).None?
    ensures r.Ok? ==> data.Converted? && DigestTagOf(b, doc, methodName) == Ok(Sha256Tag) && index < Length(keys)
                      && ProofAt(b.merkle, keys, index).Some?
                      && b.signThat(doc.core, data.value, methodName, keys.pairs[index].secret,
                                    ProofAt(b.merkle, keys, index).value) == Ok(r.value)
    ensures data.Converted? && DigestTagOf(b, doc, methodName) == Ok(Sha256Tag) && index < Length(keys)
            && ProofAt(b.merkle, keys, index).Some? ==>
              r == SignerOutcome(b.signThat(doc.core, data.value, methodName, keys.pairs[index].secret,
                                            ProofAt(b.merkle, keys, index).value))
  {
    match data
    case Unconvertible(reason) => Err(Upstream(reason))
    case Converted(props) =>
      match DigestTagOf(b, doc, methodName)
      case Err(e) => Err(e)
      case Ok(digest) =>
        match SecretAt(keys, index)
        case None => Err(InvalidSecretKeyIndex)
        case Some(secret) =>
          match digest
          case Sha256Tag =>
            (match ProofAt(b.merkle, keys, index)
             case Some(proof) =>
               SignerOutcome(b.signThat(doc.core, props, methodName, secret, proof))
             case None => Err(InvalidPublicKeyProof))
          case _ => Err(InvalidMerkleKeyDigest)
  }

  /** `verifyMerkleKey(data, target)`: success is always `true`; every
      failure, including a signature that does not verify, is an error. */
  function VerifyMerkleKey(b: Backend, doc: IotaDocument, data: Converted<Properties>, target: string)
    : (r: Result<bool, Error>)
    ensures r.Ok? ==> r.value
    ensures r.Ok? <==> data.Converted? && b.codec.decode(target).Some?
                       && b.verifyThat(doc.core, data.value, b.codec.decode(target).value).Ok?
    ensures data.Unconvertible? ==> r == Err(Upstream(data.reason))
    ensures data.Converted? && b.codec.decode(target).None? ==> r == Err(Base58DecodeFailure)
    ensures data.Converted? && b.codec.decode(target).Some?
            && b.verifyThat(doc.core, data.value, b.codec.decode(target).value).Err? ==>
              r == Err(Upstream(b.verifyThat(doc.core, data.value, b.codec.decode(target).value).error))
  {
    match data
    case Unconvertible(reason) => Err(Upstream(reason))
    case Converted(props) =>
      match b.codec.decode(target)
      case None => Err(Base58DecodeFailure)
      case Some(public) =>
        match b.verifyThat(doc.core, props, public)
        case Err(reason) => Err(Upstream(reason))
        case Ok(_) => Ok(true)
  }

  /** `Digest::from(&str)`: SHA-256 is the only digest there is. */
  function DigestOf(name: string): (d: Digest)
    ensures d == Sha256
  {
    Sha256
  }

  /** `encodeMerkleKey(digest, keys)`: the Base58 form of the Merkle key
      committing to the collection's SHA-256 root. The digest string cannot
      select anything else, so the call cannot fail. */
  function EncodeMerkleKey(b: Backend, digest: string, keys: KeyCollection): (r: Result<string, Error>)
    ensures r.Ok?
    ensures RoundTrips(b.codec) ==> b.codec.decode(r.value) == Some(b.encodeKey(b.merkle.root(Publics(keys))))
  {
    match (keys.keyType, DigestOf(digest))
    case (Ed25519, Sha256) => Ok(b.codec.encode(b.encodeKey(b.merkle.root(Publics(keys)))))
  }

  /** A method holding the key `encodeMerkleKey` produced passes the digest
      check of `signMerkleKey`; signing then fails only for a missing key, a
      missing proof, or the signer's own failure. */
  lemma EncodedKeySignsWithSha256(b: Backend, doc: IotaDocument, data: Converted<Properties>, keys: KeyCollection,
                                  methodName: string, index: nat, m: Method, digest: string)
    requires RoundTrips(b.codec) && TagsRoundTrip(b)
    requires b.resolve(doc.core, FromName(methodName)) == Some(m)
    requires m.keyData == EncodeMerkleKey(b, digest, keys).value
    requires data.Converted?
    ensures DigestTagOf(b, doc, methodName) == Ok(Sha256Tag)
    ensures SignMerkleKey(b, doc, data, keys, methodName, index) != Err(InvalidMerkleKeyDigest)
    ensures index < Length(keys) && ProofAt(b.merkle, keys, index).Some? ==>
              (SignMerkleKey(b, doc, data, keys, methodName, index).Ok? <==>
                 b.signThat(doc.core, data.value, methodName, keys.pairs[index].secret,
                            ProofAt(b.merkle, keys, index).value).Ok?)
  {
  }

  /** Sign, then verify: an object signed with key `index` of a collection
      verifies against that key's Base58 public key, when the codec round-trips
      and the signer and verifier agree on the key pair. */
  lemma SignThenVerify(b: Backend, doc: IotaDocument, props: Properties, keys: KeyCollection,
                       methodName: string, index: nat, signed: Properties)
    requires RoundTrips(b.codec)
    requires index < Length(keys)
    requires SignaturesVerify(b, keys.pairs[index].secret, keys.pairs[index].public)
    requires SignMerkleKey(b, doc, Converted(props), keys, methodName, index) == Ok(signed)
    ensures Public(b.codec, keys, index).Some?
    ensures VerifyMerkleKey(b, doc, Converted(signed), Public(b.codec, keys, index).value) == Ok(true)
  {
  }

  // ---------------------------------------------------------------------------
  // Diffs

  /** `verifyDiff(diff)`: never an error. Text that is not a diff is `false`;
      otherwise the answer is whether the diff's signature verifies. */
  function VerifyDiff(b: Backend, doc: IotaDocument, diff: string): (r: bool)
    ensures b.parseDiff(diff).None? ==> !r
    ensures r <==> b.parseDiff(diff).Some? && b.verifyData(doc.core, b.parseDiff(diff).value).Ok?
  {
    match b.parseDiff(diff)
    case Some(d) => b.verifyData(doc.core, d).Ok?
    case None => false
  }

  /** A diff printed by a printer the parser inverts verifies exactly when
      its signature does; two texts of the same diff get the same answer. */
  lemma VerifyPrintedDiff(b: Backend, doc: IotaDocument, printDiff: DocumentDiff -> string, d: DocumentDiff)
    requires b.parseDiff(printDiff(d)) == Some(d)
    ensures VerifyDiff(b, doc, printDiff(d)) <==> b.verifyData(doc.core, d).Ok?
    ensures forall text :: b.parseDiff(text) == Some(d) ==> VerifyDiff(b, doc, text) == VerifyDiff(b, doc, printDiff(d))
  {
  }

  // ---------------------------------------------------------------------------
  // Editing

  /** `IotaDocument::try_from_document`: accepts exactly the valid documents. */
  function TryFromDocument(b: Backend, d: CoreDocument): (r: Result<IotaDocument, Error>)
    ensures r.Ok? <==> b.isValid(d)
    ensures r.Ok? ==> r.value.core == d
    ensures r.Err? ==> r.error == InvalidDocument
  {
    if b.isValid(d) then Ok(IotaDocument(d)) else Err(InvalidDocument)
  }

  /** `mutate(this, f)`: check out the core document, apply the edit,
      re-validate, and commit only if every step succeeded. The first
      component is the document afterwards. */
  function Mutate<T>(b: Backend, doc: IotaDocument, edit: CoreDocument -> (CoreDocument, T))
    : (r: (IotaDocument, Result<T, Error>))
    ensures r.1.Err? ==> r.0 == doc
    ensures r.1.Ok? <==> b.serdeInto(doc).Ok? && b.isValid(edit(b.serdeInto(doc).value).0)
    ensures r.1.Ok? ==> r.0.core == edit(b.serdeInto(doc).value).0
    ensures r.1.Ok? ==> r.1.value == edit(b.serdeInto(doc).value).1
    ensures b.serdeInto(doc).Err? ==> r.1 == Err(Upstream(b.serdeInto(doc).error))
    ensures b.serdeInto(doc).Ok? && !b.isValid(edit(b.serdeInto(doc).value).0) ==> r.1 == Err(InvalidDocument)
  {
    match b.serdeInto(doc)
    case Err(reason) => (doc, Err(Upstream(reason)))
    case Ok(checkedOut) =>
      var (edited, output) := edit(checkedOut);
      match TryFromDocument(b, edited)
      case Err(e) => (doc, Err(e))
      case Ok(committed) => (committed, Ok(output))
  }

  /** The `update*` bindings for methods (`updateVerificationMethod`,
      `updateAuthentication`, ... selected by `scope`): all or nothing; on
      success the result says whether a method with the same id was replaced,
      the method is present, and no other collection changed. */
  function UpdateMethod(b: Backend, doc: IotaDocument, scope: MethodScope, m: Method)
    : (r: (IotaDocument, Result<bool, Error>))
    ensures r.1.Err? ==> r.0 == doc
    ensures b.serdeInto(doc).Ok? ==>
              (r.1.Ok? <==> b.isValid(UpdateMethodIn(b.serdeInto(doc).value, scope, m).0))
    ensures b.serdeInto(doc).Err? ==> r.1 == Err(Upstream(b.serdeInto(doc).error))
    ensures b.serdeInto(doc).Ok? && !b.isValid(UpdateMethodIn(b.serdeInto(doc).value, scope, m).0) ==> r.1 == Err(InvalidDocument)
    ensures r.1.Ok? ==> b.serdeInto(doc).Ok? && b.isValid(r.0.core)
    ensures r.1.Ok? ==> (r.1.value <==> m.id in Ids(b.serdeInto(doc).value, Methods(scope)))
    ensures r.1.Ok? ==> m.id in Ids(r.0.core, Methods(scope))
    ensures r.1.Ok? ==> SameOutside(r.0.core, b.serdeInto(doc).value, Methods(scope))
    ensures r.1.Ok? ==> MethodUpdated(b.serdeInto(doc).value, r.0.core, scope, m, r.1.value)
  {
    Mutate(b, doc, (d: CoreDocument) => UpdateMethodIn(d, scope, m))
  }

  /** The `clear*` bindings for methods: all or nothing; on success the
      selected collection is empty and nothing else changed. */
  function ClearMethods(b: Backend, doc: IotaDocument, scope: MethodScope)
    : (r: (IotaDocument, Result<(), Error>))
    ensures r.1.Err? ==> r.0 == doc
    ensures b.serdeInto(doc).Ok? ==>
              (r.1.Ok? <==> b.isValid(ClearMethodsIn(b.serdeInto(doc).value, scope)))
    ensures b.serdeInto(doc).Err? ==> r.1 == Err(Upstream(b.serdeInto(doc).error))
    ensures b.serdeInto(doc).Ok? && !b.isValid(ClearMethodsIn(b.serdeInto(doc).value, scope)) ==> r.1 == Err(InvalidDocument)
    ensures r.1.Ok? ==> b.serdeInto(doc).Ok? && b.isValid(r.0.core)
    ensures r.1.Ok? ==> Ids(r.0.core, Methods(scope)) == []
    ensures r.1.Ok? ==> SameOutside(r.0.core, b.serdeInto(doc).value, Methods(scope))
  {
    Mutate(b, doc, (d: CoreDocument) => (ClearMethodsIn(d, scope), ()))
  }

  /** `updateService(json)`: the service must convert first; then all or
      nothing, reporting whether a service with the same id was replaced. */
  function UpdateService(b: Backend, doc: IotaDocument, service: Converted<Service>)
    : (r: (IotaDocument, Result<bool, Error>))
    ensures r.1.Err? ==> r.0 == doc
    ensures service.Unconvertible? ==> r.1 == Err(Upstream(service.reason))
    ensures service.Converted? && b.serdeInto(doc).Ok? ==>
              (r.1.Ok? <==> b.isValid(UpdateServiceIn(b.serdeInto(doc).value, service.value).0))
    ensures service.Converted? && b.serdeInto(doc).Err? ==> r.1 == Err(Upstream(b.serdeInto(doc).error))
    ensures service.Converted? && b.serdeInto(doc).Ok?
            && !b.isValid(UpdateServiceIn(b.serdeInto(doc).value, service.value).0) ==>
              r.1 == Err(InvalidDocument)
    ensures r.1.Ok? ==> service.Converted? && b.serdeInto(doc).Ok? && b.isValid(r.0.core)
    ensures r.1.Ok? ==> (r.1.value <==> service.value.id in Ids(b.serdeInto(doc).value, Services))
    ensures r.1.Ok? ==> SameOutside(r.0.core, b.serdeInto(doc).value, Services)
    ensures r.1.Ok? ==> Updated(b.serdeInto(doc).value.service, r.0.core.service, ServiceId, service.value, r.1.value)
  {
    match service
    case Unconvertible(reason) => (doc, Err(Upstream(reason)))
    case Converted(s) => Mutate(b, doc, (d: CoreDocument) => UpdateServiceIn(d, s))
  }

  /** `clearServices()`: all or nothing; on success there are no services and
      nothing else changed. */
  function ClearServices(b: Backend, doc: IotaDocument): (r: (IotaDocument, Result<(), Error>))
    ensures r.1.Err? ==> r.0 == doc
    ensures b.serdeInto(doc).Ok? ==> (r.1.Ok? <==> b.isValid(ClearServicesIn(b.serdeInto(doc).value)))
    ensures b.serdeInto(doc).Err? ==> r.1 == Err(Upstream(b.serdeInto(doc).error))
    ensures b.serdeInto(doc).Ok? && !b.isValid(ClearServicesIn(b.serdeInto(doc).value)) ==> r.1 == Err(InvalidDocument)
    ensures r.1.Ok? ==> b.serdeInto(doc).Ok? && b.isValid(r.0.core)
    ensures r.1.Ok? ==> r.0.core.service == []
    ensures r.1.Ok? ==> SameOutside(r.0.core, b.serdeInto(doc).value, Services)
  {
    Mutate(b, doc, (d: CoreDocument) => (ClearServicesIn(d), ()))
  }

  /** When the check-out is faithful, a committed method update changes the
      document only in the selected collection, and a rejected one changes
      nothing at all. */
  lemma UpdateMethodIsAtomic(b: Backend, doc: IotaDocument, scope: MethodScope, m: Method)
    requires b.serdeInto(doc) == Ok(doc.core)
    ensures var r := UpdateMethod(b, doc, scope, m);
            if b.isValid(UpdateMethodIn(doc.core, scope, m).0)
            then r == (IotaDocument(UpdateMethodIn(doc.core, scope, m).0), Ok(UpdateMethodIn(doc.core, scope, m).1))
                 && SameOutside(r.0.core, doc.core, Methods(scope))
            else r == (doc, Err(InvalidDocument))
  {
  }
}

=== FILE: errors.dfy ===
/** The failures reported by the modelled code, and the outcome of converting a
    JavaScript value into a typed value. */
module Errors {
  import opened Wrappers

  /** Every error the core can hand back. The first five are produced by the
      bindings themselves with a fixed message; the rest come from the library
      (their text is the library's `Display`, which is not modelled). */
  datatype Error =
    | InvalidIdentifier
    | MethodNotFound
    | InvalidSecretKeyIndex
    | InvalidMerkleKeyDigest
    | InvalidPublicKeyProof
    | UnknownMethodScope
    | QueryMethodNotFound
    | IndexParseFailure
    | Base58DecodeFailure
    | EmptyKeyCollection
    | InvalidDocument
    | Upstream(reason: string)
  {
    /** The literal message of an error raised by the bindings, `None` for an
        error whose text the library produces. */
    function Message(): (m: Option<string>)
      ensures m.Some? <==> (InvalidIdentifier? || MethodNotFound? || InvalidSecretKeyIndex?
                            || InvalidMerkleKeyDigest? || InvalidPublicKeyProof?)
      ensures InvalidIdentifier? ==> m == Some("Invalid Verification Method Identifier")
      ensures MethodNotFound? ==> m == Some("Verification Method Not Found")
      ensures InvalidSecretKeyIndex? ==> m == Some("Invalid Secret Key Index")
      ensures InvalidMerkleKeyDigest? ==> m == Some("Invalid Merkle Key Digest")
      ensures InvalidPublicKeyProof? ==> m == Some("Invalid Public Key Proof")
    {
      match this
      case InvalidIdentifier => Some("Invalid Verification Method Identifier")
      case MethodNotFound => Some("Verification Method Not Found")
      case InvalidSecretKeyIndex => Some("Invalid Secret Key Index")
      case InvalidMerkleKeyDigest => Some("Invalid Merkle Key Digest")
      case InvalidPublicKeyProof => Some("Invalid Public Key Proof")
      case _ => None
    }
  }

  /** The outcome of `JsValue::into_serde`: either the typed value or the
      reason serde refused the JavaScript value. */
  datatype Converted<+T> = Converted(value: T) | Unconvertible(reason: string)
}

=== FILE: key_collection.dfy ===
/** The JavaScript-facing key collection: an ordered batch of key pairs of one
    key type, per-index access as Base58 strings, Merkle data, and the lenient
    JSON import / strict JSON export. */
module KeyCollections {
  import opened Wrappers
  import opened Errors
  import opened Crypto

  datatype KeyPair = KeyPair(public: PublicKey, secret: SecretKey)

  /** The library's key collection: index `i` always names the same pair. */
  datatype KeyCollection = KeyCollection(keyType: KeyType, pairs: seq<KeyPair>)

  /** One exported key pair, both halves Base58-encoded. */
  datatype KeyData = KeyData(public: string, secret: string)

  /** The JSON form `{ type, keys: [{ public, secret }, ...] }`. */
  datatype JsonData = JsonData(keyType: KeyType, keys: seq<KeyData>)

  /** `KeyCollection_::from_iterator`: refuses to build an empty collection. */
  function FromIterator(keyType: KeyType, pairs: seq<KeyPair>): (r: Result<KeyCollection, Error>)
    ensures r.Err? <==> |pairs| == 0
    ensures r.Err? ==> r.error == EmptyKeyCollection
    ensures r.Ok? ==> r.value.keyType == keyType && r.value.pairs == pairs
  {
    if |pairs| == 0 then Err(EmptyKeyCollection) else Ok(KeyCollection(keyType, pairs))
  }

  /** `length`: the number of key pairs. */
  function Length(c: KeyCollection): (n: nat)
    ensures n == |c.pairs|
    ensures n == 0 <==> c.pairs == []
  {
    |c.pairs|
  }

  /** `isEmpty`. */
  function IsEmpty(c: KeyCollection): (b: bool)
    ensures b <==> Length(c) == 0
  {
    c.pairs == []
  }

  /** `iter_public`: the public keys in index order. */
  function Publics(c: KeyCollection): (ks: seq<PublicKey>)
    ensures |ks| == Length(c)
    ensures forall i :: 0 <= i < |ks| ==> ks[i] == c.pairs[i].public
  {
    seq(|c.pairs|, i requires 0 <= i < |c.pairs| => c.pairs[i].public)
  }

  /** `iter_secret`: the secret keys in index order. */
  function Secrets(c: KeyCollection): (ks: seq<SecretKey>)
    ensures |ks| == Length(c)
    ensures forall i :: 0 <= i < |ks| ==> ks[i] == c.pairs[i].secret
  {
    seq(|c.pairs|, i requires 0 <= i < |c.pairs| => c.pairs[i].secret)
  }

  /** `keypair(index)`: the pair at `index`, if there is one. */
  function Keypair(c: KeyCollection, index: nat): (r: Option<KeyPair>)
    ensures r.None? <==> index >= Length(c)
    ensures r.Some? ==> r.value == c.pairs[index]
  {
    if index < |c.pairs| then Some(c.pairs[index]) else None
  }

  /** The library's `secret(index)`. */
  function SecretAt(c: KeyCollection, index: nat): (r: Option<SecretKey>)
    ensures r.None? <==> index >= Length(c)
    ensures r.Some? ==> r.value == Secrets(c)[index]
  {
    match Keypair(c, index)
    case Some(p) => Some(p.secret)
    case None => None
  }

  /** `public(index)`: the Base58 public key at `index`, `null` past the end. */
  function Public(codec: Base58, c: KeyCollection, index: nat): (r: Option<string>)
    ensures r.None? <==> index >= Length(c)
    ensures r.Some? ==> r.value == codec.encode(c.pairs[index].public)
    ensures r.Some? && RoundTrips(codec) ==> codec.decode(r.value) == Some(Publics(c)[index])
  {
    match Keypair(c, index)
    case Some(p) => Some(codec.encode(p.public))
    case None => None
  }

  /** `secret(index)`: the Base58 secret key at `index`, `null` past the end. */
  function Secret(codec: Base58, c: KeyCollection, index: nat): (r: Option<string>)
    ensures r.None? <==> index >= Length(c)
    ensures r.Some? ==> r.value == codec.encode(c.pairs[index].secret)
    ensures r.Some? && RoundTrips(codec) ==> codec.decode(r.value) == Some(Secrets(c)[index])
  {
    match SecretAt(c, index)
    case Some(s) => Some(codec.encode(s))
    case None => None
  }

  /** The library's `merkle_proof::<Sha256>(index)`. */
  function ProofAt(merkle: Merkle, c: KeyCollection, index: nat): Option<Bytes> {
    merkle.proof(Publics(c), index)
  }

  /** `merkleRoot(digest)`: the Base58 root; only an unreadable digest fails. */
  function MerkleRoot(codec: Base58, merkle: Merkle, c: KeyCollection, digest: Converted<Digest>): (r: Result<string, Error>)
    ensures r.Err? <==> digest.Unconvertible?
    ensures r.Ok? ==> r.value == codec.encode(merkle.root(Publics(c)))
    ensures r.Ok? && RoundTrips(codec) ==> codec.decode(r.value) == Some(merkle.root(Publics(c)))
  {
    match digest
    case Unconvertible(reason) => Err(Upstream(reason))
    case Converted(Sha256) => Ok(codec.encode(merkle.root(Publics(c))))
  }

  /** `merkleProof(digest, index)`: the Base58 proof, or `null` (not an error)
      when the collection has no proof for `index`. */
  function MerkleProof(codec: Base58, merkle: Merkle, c: KeyCollection, digest: Converted<Digest>, index: nat)
    : (r: Result<Option<string>, Error>)
    ensures r.Err? <==> digest.Unconvertible?
    ensures r.Ok? ==> (r.value.None? <==> ProofAt(merkle, c, index).None?)
    ensures r.Ok? && r.value.Some? ==> r.value.value == codec.encode(ProofAt(merkle, c, index).value)
    ensures r.Ok? && r.value.Some? && RoundTrips(codec) ==> codec.decode(r.value.value) == ProofAt(merkle, c, index)
  {
    match digest
    case Unconvertible(reason) => Err(Upstream(reason))
    case Converted(Sha256) =>
      match ProofAt(merkle, c, index)
      case None => Ok(None)
      case Some(proof) => Ok(Some(codec.encode(proof)))
  }

  /** `Iterator::zip`: pairs up two sequences, as long as the shorter one. */
  function Zip<A, B>(xs: seq<A>, ys: seq<B>): (r: seq<(A, B)>)
    ensures |r| == if |xs| <= |ys| then |xs| else |ys|
    ensures forall i :: 0 <= i < |r| ==> r[i] == (xs[i], ys[i])
  {
    if |xs| == 0 || |ys| == 0 then [] else [(xs[0], ys[0])] + Zip(xs[1..], ys[1..])
  }

  /** `toJSON`: the key type and, for each index in order, public key `i`
      paired with secret key `i`, both Base58-encoded. */
  function ToJson(codec: Base58, c: KeyCollection): (r: JsonData)
    ensures r.keyType == c.keyType
    ensures |r.keys| == Length(c)
    ensures forall i :: 0 <= i < |r.keys| ==>
              r.keys[i] == KeyData(codec.encode(c.pairs[i].public), codec.encode(c.pairs[i].secret))
  {
    var zipped := Zip(Publics(c), Secrets(c));
    JsonData(c.keyType, seq(|zipped|, i requires 0 <= i < |zipped| =>
      KeyData(codec.encode(zipped[i].0), codec.encode(zipped[i].1))))
  }

  /** One entry of the import: both halves must decode, otherwise `None`. */
  function DecodeEntry(codec: Base58, e: KeyData): (r: Option<KeyPair>)
    ensures r.Some? <==> codec.decode(e.public).Some? && codec.decode(e.secret).Some?
    ensures r.Some? ==> r.value == KeyPair(codec.decode(e.public).value, codec.decode(e.secret).value)
  {
    match codec.decode(e.public)
    case None => None
    case Some(pk) =>
      match codec.decode(e.secret)
      case None => None
      case Some(sk) => Some(KeyPair(pk, sk))
  }

  /** The `flat_map` of the import: decoded entries in order, undecodable
      ones skipped. */
  function DecodeEntries(codec: Base58, es: seq<KeyData>): (r: seq<KeyPair>)
    ensures |r| <= |es|
  {
    if |es| == 0 then []
    else
      match DecodeEntry(codec, es[0])
      case Some(p) => [p] + DecodeEntries(codec, es[1..])
      case None => DecodeEntries(codec, es[1..])
  }

  /** `fromJSON`: every entry that decodes is kept, in order, the others are
      dropped without error; the library then refuses an empty result. */
  function FromJson(codec: Base58, json: Converted<JsonData>): (r: Result<KeyCollection, Error>)
    ensures json.Unconvertible? ==> r == Err(Upstream(json.reason))
    ensures json.Converted? ==>
              (r.Ok? <==> exists e :: e in json.value.keys && DecodeEntry(codec, e).Some?)
    ensures json.Converted? && r.Err? ==> r.error == EmptyKeyCollection
    ensures r.Ok? ==> r.value.keyType == json.value.keyType
                      && r.value.pairs == DecodeEntries(codec, json.value.keys)
  {
    match json
    case Unconvertible(reason) => Err(Upstream(reason))
    case Converted(data) =>
      DecodeEntriesEmpty(codec, data.keys);
      FromIterator(data.keyType, DecodeEntries(codec, data.keys))
  }

  /** The length bounds every index-taking accessor, and the public and
      secret key sequences have exactly that many entries. */
  lemma LengthIsIndexBound(codec: Base58, c: KeyCollection, index: nat)
    ensures Keypair(c, index).Some? <==> index < Length(c)
    ensures SecretAt(c, index).Some? <==> index < Length(c)
    ensures Public(codec, c, index).Some? <==> index < Length(c)
    ensures Secret(codec, c, index).Some? <==> index < Length(c)
    ensures |Publics(c)| == |Secrets(c)| == Length(c)
    ensures IsEmpty(c) <==> Length(c) == 0
  {
  }

  /** Decoding distributes over concatenation: the import keeps the order of
      the entries. */
  lemma {:induction false} DecodeEntriesAppend(codec: Base58, a: seq<KeyData>, b: seq<KeyData>)
    ensures DecodeEntries(codec, a + b) == DecodeEntries(codec, a) + DecodeEntries(codec, b)
    decreases |a|
  {
    if |a| == 0 {
      assert a + b == b;
    } else {
      assert (a + b)[0] == a[0];
      assert (a + b)[1..] == a[1..] + b;
      DecodeEntriesAppend(codec, a[1..], b);
    }
  }

  /** A single entry is kept exactly when it decodes. */
  lemma DecodeEntriesSingle(codec: Base58, e: KeyData)
    ensures DecodeEntries(codec, [e]) == match DecodeEntry(codec, e) case Some(p) => [p] case None => []
  {
  }

  /** A pair is imported exactly when some entry decodes to it. */
  lemma {:induction false} DecodeEntriesMembership(codec: Base58, es: seq<KeyData>, p: KeyPair)
    ensures p in DecodeEntries(codec, es) <==> exists e :: e in es && DecodeEntry(codec, e) == Some(p)
    decreases |es|
  {
    if |es| > 0 {
      DecodeEntriesMembership(codec, es[1..], p);
      assert es == [es[0]] + es[1..];
      if p !in DecodeEntries(codec, es) {
        forall e | e in es
          ensures DecodeEntry(codec, e) != Some(p)
        {
          if e != es[0] {
            assert e in es[1..];
          }
        }
      }
    }
  }

  /** The import is empty exactly when no entry decodes. */
  lemma {:induction false} DecodeEntriesEmpty(codec: Base58, es: seq<KeyData>)
    ensures DecodeEntries(codec, es) == [] <==> forall e :: e in es ==> DecodeEntry(codec, e).None?
    decreases |es|
  {
    if |es| > 0 {
      DecodeEntriesEmpty(codec, es[1..]);
      assert es == [es[0]] + es[1..];
      assert forall e :: e in es[1..] ==> e in es;
    }
  }

  /** When every entry decodes, the import is entry-by-entry. */
  lemma {:induction false} DecodeEntriesAll(codec: Base58, es: seq<KeyData>)
    requires forall i :: 0 <= i < |es| ==> DecodeEntry(codec, es[i]).Some?
    ensures |DecodeEntries(codec, es)| == |es|
    ensures forall i :: 0 <= i < |es| ==> DecodeEntries(codec, es)[i] == DecodeEntry(codec, es[i]).value
    decreases |es|
  {
    if |es| > 0 {
      DecodeEntriesAll(codec, es[1..]);
    }
  }

  /** Exporting then importing gives back the same collection: same key type,
      same pairs in the same order. An empty collection cannot come back,
      since the import refuses to build one. */
  lemma RoundTrip(codec: Base58, c: KeyCollection)
    requires RoundTrips(codec)
    ensures |c.pairs| > 0 ==> FromJson(codec, Converted(ToJson(codec, c))) == Ok(c)
    ensures |c.pairs| == 0 ==> FromJson(codec, Converted(ToJson(codec, c))) == Err(EmptyKeyCollection)
  {
    var keys := ToJson(codec, c).keys;
    forall i | 0 <= i < |keys|
      ensures DecodeEntry(codec, keys[i]) == Some(c.pairs[i])
    {
      assert codec.decode(codec.encode(c.pairs[i].public)) == Some(c.pairs[i].public);
      assert codec.decode(codec.encode(c.pairs[i].secret)) == Some(c.pairs[i].secret);
    }
    DecodeEntriesAll(codec, keys);
    assert DecodeEntries(codec, keys) == c.pairs;
  }
}

=== FILE: method_query.dfy ===
/** Verification-method queries: which method of a DID document to look up
    (by position or by identifier) and in which verification relationship of
    W3C DID Core (section 5.3) to look for it. */
module Verification {
  import opened Wrappers
  import opened Errors
  import opened Crypto

  /** A method identifier: a position in the searched collection or an
      identifier string. */
  datatype MethodIdent = Index(index: nat) | Ident(name: string)

  /** The collection a query searches: the general `verificationMethod` set or
      one of the five verification relationships. */
  datatype MethodScope =
    | VerificationMethod
    | Authentication
    | AssertionMethod
    | KeyAgreement
    | CapabilityDelegation
    | CapabilityInvocation
  {
    /** The scope's textual name, the only strings `ParseScope` accepts. */
    function Name(): string {
      match this
      case VerificationMethod => "VerificationMethod"
      case Authentication => "Authentication"
      case AssertionMethod => "AssertionMethod"
      case KeyAgreement => "KeyAgreement"
      case CapabilityDelegation => "CapabilityDelegation"
      case CapabilityInvocation => "CapabilityInvocation"
    }
  }

  /** `MethodScope::default()`: the general verification-method set. */
  function DefaultScope(): MethodScope {
    VerificationMethod
  }

  /** `str::parse::<MethodScope>()`: exactly the six scope names are accepted. */
  function ParseScope(s: string): (r: Result<MethodScope, Error>)
    ensures r.Ok? ==> r.value.Name() == s
    ensures r.Err? ==> r.error == UnknownMethodScope
    ensures r.Err? <==> forall scope: MethodScope :: scope.Name() != s
  {
    if s == "VerificationMethod" then Ok(VerificationMethod)
    else if s == "Authentication" then Ok(Authentication)
    else if s == "AssertionMethod" then Ok(AssertionMethod)
    else if s == "KeyAgreement" then Ok(KeyAgreement)
    else if s == "CapabilityDelegation" then Ok(CapabilityDelegation)
    else if s == "CapabilityInvocation" then Ok(CapabilityInvocation)
    else Err(UnknownMethodScope)
  }

  /** Parsing a scope's name gives the scope back. */
  lemma ParseScopeName(scope: MethodScope)
    ensures ParseScope(scope.Name()) == Ok(scope)
  {
  }

  /** The conditions of a method resolution query. */
  datatype MethodQuery = MethodQuery(ident: MethodIdent, scope: MethodScope)

  /** `MethodQuery::new`: the given identifier in the default scope. */
  function New(ident: MethodIdent): (q: MethodQuery)
    ensures q.ident == ident
    ensures q.scope == DefaultScope()
  {
    WithScope(ident, DefaultScope())
  }

  /** `MethodQuery::with_scope`: the identifier and scope, stored unchanged. */
  function WithScope(ident: MethodIdent, scope: MethodScope): (q: MethodQuery)
    ensures q.ident == ident && q.scope == scope
  {
    MethodQuery(ident, scope)
  }

  /** `From<&str>`: an identifier string in the default scope. */
  function FromName(name: string): (q: MethodQuery)
    ensures q.ident == Ident(name) && q.scope == DefaultScope()
  {
    New(Ident(name))
  }

  /** `From<usize>`: a position in the default scope. */
  function FromIndex(index: nat): (q: MethodQuery)
    ensures q.ident == Index(index) && q.scope == DefaultScope()
  {
    New(Index(index))
  }

  /** `From<(&str, MethodScope)>`. */
  function FromNameScope(name: string, scope: MethodScope): (q: MethodQuery)
    ensures q.ident == Ident(name) && q.scope == scope
  {
    WithScope(Ident(name), scope)
  }

  /** `From<(usize, MethodScope)>`. */
  function FromIndexScope(index: nat, scope: MethodScope): (q: MethodQuery)
    ensures q.ident == Index(index) && q.scope == scope
  {
    WithScope(Index(index), scope)
  }

  /** `From<(MethodIdent, MethodScope)>`. */
  function FromPair(pair: (MethodIdent, MethodScope)): (q: MethodQuery)
    ensures q.ident == pair.0 && q.scope == pair.1
  {
    WithScope(pair.0, pair.1)
  }

  /** `From<MethodScope>`: the first method of that scope. */
  function FromScope(scope: MethodScope): (q: MethodQuery)
    ensures q.ident == Index(0) && q.scope == scope
  {
    WithScope(Index(0), scope)
  }

  /** `TryFrom<&Signature>`: the signature's verification method names the
      method; its proof purpose, when present, must name a scope. */
  function TryFromSignature(sig: Signature): (r: Result<MethodQuery, Error>)
    ensures r.Ok? ==> r.value.ident == Ident(sig.verificationMethod)
    ensures sig.proofPurpose.None? ==> r.Ok? && r.value.scope == DefaultScope()
    ensures sig.proofPurpose.Some? ==>
              (r.Ok? <==> exists scope: MethodScope :: scope.Name() == sig.proofPurpose.value)
    ensures sig.proofPurpose.Some? && r.Ok? ==> r.value.scope.Name() == sig.proofPurpose.value
    ensures r.Err? ==> r.error == UnknownMethodScope
  {
    var ident := Ident(sig.verificationMethod);
    match sig.proofPurpose
    case Some(purpose) =>
      (match ParseScope(purpose)
       case Ok(scope) => Ok(WithScope(ident, scope))
       case Err(e) => Err(e))
    case None => Ok(New(ident))
  }

  /** Every conversion is `with_scope` on the identifier it wraps; the bare
      forms use the default scope. */
  lemma ConversionsAgree(name: string, index: nat, scope: MethodScope)
    ensures FromName(name) == FromNameScope(name, DefaultScope())
    ensures FromIndex(index) == FromIndexScope(index, DefaultScope())
    ensures FromNameScope(name, scope) == FromPair((Ident(name), scope))
    ensures FromIndexScope(index, scope) == FromPair((Index(index), scope))
    ensures FromScope(scope) == FromIndexScope(0, scope)
  {
  }

  /** A signature carrying a scope's name as its proof purpose converts to a
      query in that scope; without a purpose it converts like its bare
      verification method string. */
  lemma SignaturePurposeRoundTrip(sig: Signature, scope: MethodScope)
    ensures sig.proofPurpose == Some(scope.Name()) ==>
              TryFromSignature(sig) == Ok(FromNameScope(sig.verificationMethod, scope))
    ensures sig.proofPurpose.None? ==> TryFromSignature(sig) == Ok(FromName(sig.verificationMethod))
  {
  }
}

=== FILE: verifiable.dfy ===
/** A verifiable credential: a credential of any payload type `C` together
    with one or many proofs, exposing the get / mutable-get / set signature
    capability. */
module Credentials {
  import opened Wrappers
  import opened Crypto
  import opened Common

  datatype VerifiableCredential<C> = VerifiableCredential(credential: C, proof: OneOrMany<Signature>)
  {
    /** `proof()`. */
    function Proof(): (p: OneOrMany<Signature>)
      ensures p == proof
    {
      proof
    }

    /** The wrapped credential, as `Deref` exposes it. */
    function Credential(): (c: C)
      ensures c == credential
    {
      credential
    }

    /** `proof_mut()`, written through: replace the proof collection. */
    function WithProof(p: OneOrMany<Signature>): (r: VerifiableCredential<C>)
      ensures r.Proof() == p
      ensures r.Credential() == Credential()
    {
      this.(proof := p)
    }

    /** `DerefMut`, written through: replace the credential. */
    function WithCredential(c: C): (r: VerifiableCredential<C>)
      ensures r.Credential() == c
      ensures r.Proof() == Proof()
    {
      this.(credential := c)
    }

    /** `TrySignature::signature`: the primary proof, element 0. */
    function Signature(): (r: Option<Signature>)
      ensures r.None? <==> proof.IsEmpty()
      ensures r.Some? ==> r.value == proof.Elements()[0]
      ensures proof.One? ==> r == Some(proof.one)
    {
      proof.Get(0)
    }

    /** `TrySignatureMut::signature_mut`: a mutable reference to element 0,
        modelled as its current value and the credential obtained by writing
        a new value through it. */
    function SignatureMut(): (r: Option<SignatureRef<C>>)
      ensures r.None? <==> Signature().None?
      ensures r.Some? ==> Some(r.value.current) == Signature()
      ensures r.Some? ==> forall v :: WritesOnlyPrimary(this, r.value.write(v), v)
    {
      if proof.IsEmpty() then None
      else Some(SignatureRef(proof.Elements()[0], v => this.(proof := proof.SetAt(0, v))))
    }

    /** `SetSignature::set_signature`: the proof becomes exactly `One(v)`. */
    function SetSignature(v: Signature): (r: VerifiableCredential<C>)
      ensures r.Proof() == One(v)
      ensures r.Signature() == Some(v)
      ensures r.Credential() == Credential()
    {
      this.(proof := One(v))
    }
  }

  /** A mutable reference to a credential's primary signature. */
  datatype SignatureRef<C> = SignatureRef(current: Signature, write: Signature -> VerifiableCredential<C>)

  /** `after` is `before` with element 0 of its proofs replaced by `v`: the
      credential, the proof count, the proof kind and every other proof are
      as they were. */
  ghost predicate WritesOnlyPrimary<C>(before: VerifiableCredential<C>, after: VerifiableCredential<C>, v: Signature) {
    && after.credential == before.credential
    && after.proof.One? == before.proof.One?
    && |after.proof.Elements()| == |before.proof.Elements()| > 0
    && after.proof.Elements()[0] == v
    && (forall i :: 0 < i < |before.proof.Elements()| ==> after.proof.Elements()[i] == before.proof.Elements()[i])
  }

  /** `VerifiableCredential::new`: the credential and the proofs are stored
      unchanged. */
  function New<C>(credential: C, proof: OneOrMany<Signature>): (r: VerifiableCredential<C>)
    ensures r.Credential() == credential
    ensures r.Proof() == proof
  {
    VerifiableCredential(credential, proof)
  }

  /** Setting the signature and reading it back returns it, whatever proofs
      were there before; setting twice keeps only the second. */
  lemma SetThenGet<C>(vc: VerifiableCredential<C>, v: Signature, w: Signature)
    ensures vc.SetSignature(v).Signature() == Some(v)
    ensures vc.SetSignature(v).SetSignature(w) == vc.SetSignature(w)
    ensures vc.SetSignature(v).SignatureMut().Some?
  {
  }

  /** Writing the current primary signature back through the mutable
      reference changes nothing. */
  lemma WriteBackIsIdentity<C>(vc: VerifiableCredential<C>)
    requires vc.SignatureMut().Some?
    ensures vc.SignatureMut().value.write(vc.SignatureMut().value.current) == vc
  {
  }
}

=== FILE: wrappers.dfy ===
/** Option and Result, the two failure-carrying shapes the bindings use. */
module Wrappers {

  /** An optional value; `None` plays the part of Rust's `None` and of a
      JavaScript `null` returned by the bindings. */
  datatype Option<+T> = None | Some(value: T)

  /** A value or an error. */
  datatype Result<+T, +E> = Ok(value: T) | Err(error: E)
}
